=== FILE: README.md ===
# PerComDataCollector: a Dafny model of the dataset file layer

PerComDataCollector is an Android app. It turns accelerometer and gyroscope
samples into rows of a Weka ARFF (Attribute-Relation File Format) data file.
It keeps that file in the app's private storage, and it can delete the file or
export it to external storage. This project models the part of the app that
builds rows and manages that file:

- `MainActivity` has the row-building helpers and the handlers. The helpers
  are `findMax`, `findMin`, `getMovementType` and `fileSizeToMBString`. The
  handlers are `addNewRecord`, `addArffFile`, the connect handler (load the
  file, or create it when it is missing), the delete button and
  `exportToSdCard`.
- `FileService` saves, appends, loads line by line, sizes, deletes and
  exports files.
- `ArffFile` is the mutable record of name, context and content. It derives a
  "clear name" with `String.split(".arff")`.
- `FileHandler` is the lazily created singleton that holds the current
  `ArffFile`.

Modules:

| module | file | what it holds |
|---|---|---|
| `JavaText` | `java_text.dfy` | `Option`, `Long.toString` as decimal digits with their read-back, and the UTF-8 byte length of text |
| `Files` | `arff_file.dfy` | the `ArffFile` class and a model of `split(".arff")` with limit 0, where the regex `.` refuses the line terminators of Android's ICU-based `java.util.regex` (U+000A to U+000D, U+0085, U+2028, U+2029) |
| `Controller` | `file_handler.dfy` | `FileHandler` and the holder of its static `instance` field |
| `Platform` | `device.dfy` | the storage the app touches: private files, external files and directories, storage state, and streams |
| `LineReader` | `line_reader.dfy` | the line-splitting rule of `BufferedReader.readLine` and the text the load loop rebuilds |
| `Services` | `file_service.dfy` | the `FileService` class |
| `Activities` | `main_activity.dfy` | the helpers, the row format, the ARFF header and the `MainActivity` handlers |

How the platform is represented:

- A `Device` object holds the files and their state.
  - The private files directory is a map from file name to text.
  - External storage is a map from absolute path to text, plus a set of
    directories.
  - The storage state is an enumeration of the values
    `Environment.getExternalStorageState` can report.
- An open output stream is a (volume, path) pair. Writing appends to the
  file: `MODE_PRIVATE` truncates the file when it is opened, and `MODE_APPEND`
  keeps what it holds.
- The Java singleton's static field lives in a `FileHandlerHolder` object,
  shared by every caller of `GetInstance`.
- A `float` sample enters the model as the text `Float.toString` makes of it
  (type `Numeral`: non-empty, with no ',' and no line break). `findMax` and
  `findMin` are modelled over `real`.
- File sizes are counted in UTF-8 bytes, because the app writes through the
  platform's default charset.

A load does not return the text exactly as written. The load loop puts "\n"
after every line, the last line included, and `readLine` treats "\r\n", a
lone '\r' and '\n' alike as line ends. So every line end comes back as
"\n", and a file that does not end in a newline gains one
(`LineReader.LoadedTextNormalizes`, `LineReader.LoadedTextNoCr`,
`Activities.HeaderThenRowLoads`).

## Model

| member | source | states |
|---|---|---|
| Activities.FindMax | app/src/main/java/com/percom/percomdatacollector/activites/MainActivity.java:480-494 | the result is one of x, y and z and is at least each of them, for every tie pattern, so the initial 0 is never returned |
| Activities.FindMin | app/src/main/java/com/percom/percomdatacollector/activites/MainActivity.java:496-510 | the result is one of x, y and z and is at most each of them, for every tie pattern |
| Activities.GetMovementType | app/src/main/java/com/percom/percomdatacollector/activites/MainActivity.java:470-478 | walking wins over jogging, which wins over sport; the label is "" exactly when no button is checked |
| Activities.FileSizeToMBString | app/src/main/java/com/percom/percomdatacollector/activites/MainActivity.java:537-548 | the label starts with "Dateigröße: " and ends in "MB" exactly when the size is above 10240 KB, otherwise in "KB"; FileSizeLabelDecodes states what the digits say |
| Activities.FileSizeLabelDecodes | app/src/main/java/com/percom/percomdatacollector/activites/MainActivity.java:537-548 | the label is "Dateigröße: ", then decimal digits without leading zeros, then a unit; the unit is "MB" exactly when the size is above 10240 KB (10240 stays in KB); the digits read back as size/1024 in the MB case and as the size in the KB case, so the label is fixed exactly |
| Activities.NewRecord | app/src/main/java/com/percom/percomdatacollector/activites/MainActivity.java:359-365 | the row: its length is the six fields plus the leading "\n" and five commas; it starts with "\n" and the mean and ends with "," and the sensor; RecordFields and RecordIsOneLine state that it reads back as one line of six fields |
| Activities.RecordFields | app/src/main/java/com/percom/percomdatacollector/activites/MainActivity.java:359-365 | a row starts with "\n", and cutting the rest at commas gives back exactly mean, stdDeviation, min, max, movementType and sensor when the last two hold no comma |
| Activities.RecordIsOneLine | app/src/main/java/com/percom/percomdatacollector/activites/MainActivity.java:359-365 | a row's only line break is its leading "\n"; it holds no '\r' and does not end in a newline |
| Activities.LoadAfterRecord | app/src/main/java/com/percom/percomdatacollector/activites/MainActivity.java:359-373 | appending a row to '\r'-free content and loading the file gives the old content, the row and one final "\n" |
| Activities.HeaderThenRowLoads | app/src/main/java/com/percom/percomdatacollector/activites/MainActivity.java:323-345 | a new data file, with one row appended, loads back as the header plus the row plus "\n" |
| Activities.ArffHeaderHasNoCr | app/src/main/java/com/percom/percomdatacollector/activites/MainActivity.java:323-332 | the header holds no '\r', so loading it only normalises its end |
| Activities.ArffHeaderEnds | app/src/main/java/com/percom/percomdatacollector/activites/MainActivity.java:323-332 | the header opens with the relation line and ends in "@data" with no newline after it |
| Activities.DataFileNameIsPlain | app/src/main/java/com/percom/percomdatacollector/activites/MainActivity.java:42 | the data file's name can be opened in the private directory |
| Activities.DataFileClearName | app/src/main/java/com/percom/percomdatacollector/activites/MainActivity.java:42 | for the data file's name, the regex split and plain suffix stripping both give "acc-data,walking,jogging,sport" |
| Activities.MainActivity.AddArffFile | app/src/main/java/com/percom/percomdatacollector/activites/MainActivity.java:321-351 | with a file service, the data file holds exactly the header (truncated first), and a new record with that name and content becomes the current file; without one, the file is left truncated and the current file is unchanged |
| Activities.MainActivity.AddNewRecord | app/src/main/java/com/percom/percomdatacollector/activites/MainActivity.java:354-381 | the row is appended to the file the current record names, keeping the old content (a missing file starts empty); without a service, without a current record, or with a name that cannot be opened, no file changes |
| Activities.MainActivity.OnServiceConnected | app/src/main/java/com/percom/percomdatacollector/activites/MainActivity.java:88-105 | a missing data file is created with the header and becomes current; an existing one is left as it is, a fresh record with its loaded content and the data file name becomes current, and the label shows its size |
| Activities.MainActivity.OnDeleteClicked | app/src/main/java/com/percom/percomdatacollector/activites/MainActivity.java:166-176 | afterwards the data file holds exactly the header, that record is current, and the label shows size 0 without a unit |
| Activities.MainActivity.ExportToSdCard | app/src/main/java/com/percom/percomdatacollector/activites/MainActivity.java:201-217 | with a service and the data file present, the reloaded file becomes current and its loaded content is exported under its name when storage is mounted read-write; with a service and no data file, `getInstance` has already run, so a handler exists (a new one holding a default record when there was none) and nothing else changes; without a service nothing changes |
| Services.CanExport | app/src/main/java/com/percom/percomdatacollector/services/FileService.java:240-264 | export writes exactly in state MEDIA_MOUNTED; read-only and all other states do not |
| Services.ExportPath | app/src/main/java/com/percom/percomdatacollector/services/FileService.java:269 | the target lies directly in the export directory, after one "/", and the file name reads back from its end |
| Services.ExportPathInjective | app/src/main/java/com/percom/percomdatacollector/services/FileService.java:269 | records with different names never export to the same file |
| Services.ExportDirChain | app/src/main/java/com/percom/percomdatacollector/services/FileService.java:272-275 | `mkdirs` makes sure the export directory and its parents exist |
| Services.FileService.SaveAFile | app/src/main/java/com/percom/percomdatacollector/services/FileService.java:127-140 | the file gains exactly the record's content, never its name; nothing else changes |
| Services.FileService.AppendToFile | app/src/main/java/com/percom/percomdatacollector/services/FileService.java:148-161 | the file becomes its old content followed by exactly the record string |
| Services.FileService.LoadFileFromDevice | app/src/main/java/com/percom/percomdatacollector/services/FileService.java:168-232 | a readable stream gives a fresh record with empty name and context whose content is every line followed by "\n"; a failing read gives null |
| Services.FileService.ExportAFileToSdCard | app/src/main/java/com/percom/percomdatacollector/services/FileService.java:239-282 | only when mounted read-write: the export directories exist afterwards, and the record's content lands verbatim at the export path, or an IOException when the name is not a plain file name free there (a name with '/' included, see Left out); in every other state nothing changes and nothing is thrown |
| Services.FileService.CreateAndSaveFile | app/src/main/java/com/percom/percomdatacollector/services/FileService.java:292-303 | the file named after the record in the directory holds exactly its content, or an IOException when the directory is missing or the name is not a plain file name free there (a name with '/' included, see Left out) |
| Services.FileService.CalcFileSize | app/src/main/java/com/percom/percomdatacollector/services/FileService.java:311-322 | the size is the byte length divided by 1024, rounded down (kb·1024 ≤ length < (kb+1)·1024), and 0 for a missing file |
| Services.FileService.DeleteFile | app/src/main/java/com/percom/percomdatacollector/services/FileService.java:329-342 | returns true exactly when the file existed; afterwards it is gone and nothing else changed |
| Services.SizeInKbBounds | app/src/main/java/com/percom/percomdatacollector/services/FileService.java:319 | the reported size lies between the character count and four times it, each divided by 1024 |
| Services.SizeGrowsWithAppend | app/src/main/java/com/percom/percomdatacollector/services/FileService.java:319 | appending never lowers the reported size |
| Services.SizeOfAsciiFile | app/src/main/java/com/percom/percomdatacollector/services/FileService.java:319 | for ASCII text the reported size is the character count divided by 1024 |
| LineReader.ReadLine | app/src/main/java/com/percom/percomdatacollector/services/FileService.java:194 | no line at the end of the text; otherwise the line is the text before the first '\n' or '\r' (all of it when there is none), and reading resumes after that terminator, with "\r\n" taken as one terminator |
| LineReader.LoadedText | app/src/main/java/com/percom/percomdatacollector/services/FileService.java:192-208 | the text the load loop builds: each line read, followed by "\n"; no '\r' survives |
| LineReader.LoadedTextStep | app/src/main/java/com/percom/percomdatacollector/services/FileService.java:192-202 | one loop step: the first line, its "\n", then the rest loaded |
| LineReader.LoadedTextNoCr | app/src/main/java/com/percom/percomdatacollector/services/FileService.java:192-208 | for '\r'-free text, loading gives "" for an empty file, leaves text ending in "\n" unchanged, and adds one "\n" otherwise |
| LineReader.LoadedTextNormalizes | app/src/main/java/com/percom/percomdatacollector/services/FileService.java:192-208 | for every text, loading writes each terminator ("\r\n", a lone '\r' or '\n') as one "\n", and ends non-empty text with "\n" |
| LineReader.NormalizeEol | app/src/main/java/com/percom/percomdatacollector/services/FileService.java:194-198 | the reference normal form: each terminator written as one "\n"; the result holds no '\r' |
| LineReader.NormalizeEolMixedTerminators | app/src/main/java/com/percom/percomdatacollector/services/FileService.java:194-198 | "a\r\nb\rc" normalises to "a\nb\nc": "\r\n" is one terminator and a lone '\r' another |
| LineReader.LoadedTextEndsInNewline | app/src/main/java/com/percom/percomdatacollector/services/FileService.java:192-208 | loaded text is empty exactly for an empty file, and otherwise ends in "\n" |
| LineReader.LoadedTextIdempotent | app/src/main/java/com/percom/percomdatacollector/services/FileService.java:192-208 | loading the loaded text again changes nothing |
| Platform.Device.OpenFileOutput | app/src/main/java/com/percom/percomdatacollector/activites/MainActivity.java:343 | opening creates the file, truncating it in private mode and keeping it in append mode; a name that is not a plain file fails |
| Platform.Device.OpenFileInput | app/src/main/java/com/percom/percomdatacollector/activites/MainActivity.java:97 | opening succeeds exactly for an existing plain file, and the stream delivers its text |
| Platform.Device.Delete | app/src/main/java/com/percom/percomdatacollector/activites/MainActivity.java:170 | true exactly when the file existed; afterwards it is gone |
| Platform.Device.OpenExternalOutput | app/src/main/java/com/percom/percomdatacollector/services/FileService.java:294-297 | `new FileOutputStream(new File(dir, name))` for a name without '/': it succeeds exactly when the directory exists and the name is a plain file name not taken by a directory, and then creates or truncates that file to "" and changes nothing else |
| Platform.Device.Write | app/src/main/java/com/percom/percomdatacollector/services/FileService.java:129-136 | the text lands at the end of the stream's file, on the stream's volume; the other volume, the directories and the storage state are unchanged |
| Platform.Device.MakeDirs | app/src/main/java/com/percom/percomdatacollector/services/FileService.java:275 | afterwards the directories are the old ones plus the whole chain; no file and not the storage state changes |
| Files.FindFrom | app/src/main/java/com/percom/percomdatacollector/Files/ArffFile.java:59 | the leftmost match of the regex ".arff" at or after a position, or none at all |
| Files.DropTrailingEmpty | app/src/main/java/com/percom/percomdatacollector/Files/ArffFile.java:59 | keeps a prefix of the pieces, ending in a non-empty piece, and drops only empty ones |
| Files.SplitArff | app/src/main/java/com/percom/percomdatacollector/Files/ArffFile.java:59 | `split(".arff")`: the first piece is a prefix of the text, "" splits to [""], and a result of two or more pieces does not end in "" |
| Files.ClearFileNameOf | app/src/main/java/com/percom/percomdatacollector/Files/ArffFile.java:58-62 | element 0 of the split, or nothing where Java throws; a clear name is always a prefix of the name. ClearFileNameThrows, ClearFileNameBeforeFirstMatch and ClearFileNameRoundTrip characterise it |
| Files.ClearFileNameNoMatch | app/src/main/java/com/percom/percomdatacollector/Files/ArffFile.java:58-62 | a name with no match is returned whole |
| Files.ClearFileNameBeforeFirstMatch | app/src/main/java/com/percom/percomdatacollector/Files/ArffFile.java:58-62 | with a first match at p > 0, the clear name is the text before p |
| Files.ClearFileNameThrows | app/src/main/java/com/percom/percomdatacollector/Files/ArffFile.java:59-61 | element 0 is missing (Java throws) exactly when the name is non-empty and made of matches only |
| Files.ClearFileNameLeadingMatch | app/src/main/java/com/percom/percomdatacollector/Files/ArffFile.java:59-61 | a match at index 0 followed by more than matches gives "" |
| Files.ClearFileNameEdgeCases | app/src/main/java/com/percom/percomdatacollector/Files/ArffFile.java:59-61 | ".arffX" gives ""; ".arff" and "Xarff" throw |
| Files.ClearFileNameRoundTrip | app/src/main/java/com/percom/percomdatacollector/Files/ArffFile.java:42-62 | a non-empty name with "arff" at no index ≥ 1 comes back unchanged from its ".arff" form |
| Files.ClearFileNameAfterTerminator | app/src/main/java/com/percom/percomdatacollector/Files/ArffFile.java:59 | a vertical tab or form feed before "arff" is no match on Android, so "\u000Barff" and "\u000Carff" come back whole |
| Files.ClearFileNameCutsAtInnerArff | app/src/main/java/com/percom/percomdatacollector/Files/ArffFile.java:59 | "myarffdata.arff" clears to "m" |
| Files.StripFileType | app/src/main/java/com/percom/percomdatacollector/Files/ArffFile.java:55-62 | the intended clear name: a prefix of the name, shorter exactly when the name ends in the literal ".arff", which is then all that was cut |
| Files.StripFileTypeRoundTrip | app/src/main/java/com/percom/percomdatacollector/Files/ArffFile.java:55-62 | every name comes back unchanged from its ".arff" form under the intended clear name |
| Files.ArffFile.constructor | app/src/main/java/com/percom/percomdatacollector/Files/ArffFile.java:15-26 | a new record has empty name, context and content |
| Files.ArffFile.WithContent | app/src/main/java/com/percom/percomdatacollector/Files/ArffFile.java:28-31 | stores the name verbatim, without a suffix, and the content; the context stays empty |
| Files.ArffFile.SetFileName | app/src/main/java/com/percom/percomdatacollector/Files/ArffFile.java:42-45 | the name read back is the given one, with ".arff" attached exactly when asked; the other fields are unchanged |
| Files.ArffFile.SetFileContent | app/src/main/java/com/percom/percomdatacollector/Files/ArffFile.java:47-53 | the content read back is exactly the one set; the other fields are unchanged |
| Files.ArffFile.SetContext | app/src/main/java/com/percom/percomdatacollector/Files/ArffFile.java:64-70 | the context read back is exactly the one set; the other fields are unchanged |
| Files.ArffFile.ClearFileName | app/src/main/java/com/percom/percomdatacollector/Files/ArffFile.java:58-62 | `getClearFileName` reads the stored name without changing it; the result is a prefix of that name |
| Controller.FileHandler.constructor | app/src/main/java/com/percom/percomdatacollector/controller/FileHandler.java:16-18 | a new handler's current file is a fresh default record |
| Controller.FileHandler.GetCurrentArffFile | app/src/main/java/com/percom/percomdatacollector/controller/FileHandler.java:32-34 | the getter: returns the stored current file; SetCurrentArffFile's contract is stated through it |
| Controller.FileHandler.SetCurrentArffFile | app/src/main/java/com/percom/percomdatacollector/controller/FileHandler.java:32-38 | the current file read back is exactly the argument, null included |
| Controller.FileHandlerHolder.constructor | app/src/main/java/com/percom/percomdatacollector/controller/FileHandler.java:13 | there is no instance before the first call |
| Controller.FileHandlerHolder.GetInstance | app/src/main/java/com/percom/percomdatacollector/controller/FileHandler.java:25-30 | a handler is created only when there is none; every call returns the one the holder keeps |
| JavaText.DecimalRoundTrip | app/src/main/java/com/percom/percomdatacollector/activites/MainActivity.java:542-544 | the decimal digits written for a size read back as that size |
| JavaText.Utf8LengthAppend | app/src/main/java/com/percom/percomdatacollector/services/FileService.java:319 | the byte length of appended text is the sum of the two lengths |

## Left out

- Android plumbing is not modelled: binding and unbinding the service, notifications, toasts, widgets, wake locks, and registering and unregistering sensors.
- `onSensorChanged` is not modelled. It wires samples to `addNewRecord` and refreshes the size label. Its floating-point work is left out too: `calcMean`, `calcStdDeviation`, gyroscope normalisation and the substring trimming for display.
- `Activities.FindMax`, `Activities.FindMin`: modelled over `real`, so NaN and other IEEE 754 float behaviour are not captured.
- `Float.toString` is not computed. A sample enters as a `Numeral`, a non-empty text without ',' or a line break.
- The stream objects (`OutputStreamWriter`, `BufferedReader`, the service's `out`, `in` and `inputStreamReader` fields) are not modelled. A write appends the text to the file the stream is open on; a read delivers the file's text or fails as a whole.
- `Services.FileService.LoadFileFromDevice`: a read that fails halfway is modelled as failing from the start, so partial reads are not represented.
- The crash when `loadFileFromDevice` returns null inside the connect handler or `exportToSdCard` is left out. `Activities.MainActivity.OnServiceConnected` and `Activities.MainActivity.ExportToSdCard` only open the data file when it exists, so their reads always succeed.
- `Activities.MainActivity.OnDeleteClicked` requires a bound file service. Without one, Java throws an uncaught NullPointerException after deleting the file.
- `Platform.Device.OpenExternalOutput`: a name holding '/' is refused. Java resolves it below the directory instead ("sub/x" opens dir/sub/x when dir/sub exists; "x/" and "./x" open dir/x). The app only ever exports its one data file name, which holds no '/'.
- `Services.FileService.CreateAndSaveFile`: a record name holding '/' gives an IOException, where Java would write below the directory as a relative path.
- `Services.FileService.ExportAFileToSdCard`: a record name holding '/' gives an IOException, where Java would write below the export directory when the directories on the way exist.
- `File.mkdirs` is modelled as always succeeding. The case of an external path already taken by a file is not modelled.
- `Services.FileService.CalcFileSize`: `File.length` on the data file is taken as its UTF-8 byte count, and the length of a directory is not modelled.
- `Services.FileService.DeleteFile` and `Platform.Device.Delete` work on files of the private directory only. Deleting a directory is not modelled.
- The 64-bit `long` range is not modelled. File sizes are unbounded integers, since a real file size never reaches the `long` limit.
- `synchronized` on `getInstance` and all other concurrency are not modelled. The model is single-threaded.

## Findings

| source | as written | input that shows it | evidently intended | confidence | as-written member | corrected member |
|---|---|---|---|---|---|---|
| app/src/main/java/com/percom/percomdatacollector/Files/ArffFile.java:59 | `split(".arff")` treats ".arff" as a regex, so any character followed by "arff" cuts, and the first such match wins | "myarffdata.arff" gives "m" | the name with the literal suffix ".arff" removed: "myarffdata" | high; not executed | Files.ClearFileNameCutsAtInnerArff | Files.StripFileTypeRoundTrip |

=== FILE: arff_file.dfy ===
/**
 * The ARFF file record: a mutable object holding a file name, a movement
 * context and the file's text, and the "clear name" derived from the file
 * name by `String.split(".arff")[0]`.
 *
 * `split` takes a regular expression, so ".arff" means: any character other
 * than a line terminator, followed by the four letters "arff". The functions
 * below follow `java.lang.String.split(regex, 0)`: the text is cut at every
 * non-overlapping match found from left to right, a text with no match at all
 * yields itself as the only piece, and trailing empty pieces are dropped, so
 * the resulting array can be empty, and then element 0 does not exist.
 */
module Files {
  import opened JavaText

  /** The file type suffix attached by `SetFileName(name, true)`. */
  const FileTypeArff: string := ".arff"

  /**
   * The characters the regex `.` does not match without the DOTALL flag, in
   * Android's ICU-based `java.util.regex`: U+000A to U+000D, U+0085, U+2028
   * and U+2029.
   */
  predicate IsLineTerminator(c: char) {
    '\n' <= c <= '\r' || c == '\U{0085}' || c == '\U{2028}' || c == '\U{2029}'
  }

  /** The regex ".arff" matches the five characters of `s` starting at `i`. */
  predicate MatchesAt(s: string, i: nat) {
    i + 5 <= |s| && !IsLineTerminator(s[i]) && s[i + 1..i + 5] == "arff"
  }

  /** The leftmost match starting at or after `from`, as `Matcher.find` reports it. */
  function FindFrom(s: string, from: nat): (r: Option<nat>)
    requires from <= |s|
    ensures r.Some? ==> from <= r.value && MatchesAt(s, r.value)
    ensures r.Some? ==> forall j :: from <= j < r.value ==> !MatchesAt(s, j)
    ensures r.None? ==> forall j :: from <= j ==> !MatchesAt(s, j)
    decreases |s| - from
  {
    if from + 5 > |s| then None
    else if MatchesAt(s, from) then Some(from)
    else FindFrom(s, from + 1)
  }

  /** The pieces of `s[from..]` between consecutive matches, trailing empties included. */
  function Pieces(s: string, from: nat): (ps: seq<string>)
    requires from <= |s|
    ensures |ps| >= 1
    ensures ps[0] <= s[from..]
    decreases |s| - from
  {
    match FindFrom(s, from)
    case None => [s[from..]]
    case Some(p) => [s[from..p]] + Pieces(s, p + 5)
  }

  /** Removes the empty strings at the end of a piece list. */
  function DropTrailingEmpty(ps: seq<string>): (r: seq<string>)
    ensures r <= ps
    ensures r != [] ==> r[|r| - 1] != ""
    ensures forall k :: |r| <= k < |ps| ==> ps[k] == ""
  {
    if ps == [] || ps[|ps| - 1] != "" then ps else DropTrailingEmpty(ps[..|ps| - 1])
  }

  /** `s.split(".arff")`, that is `split` with limit 0. */
  function SplitArff(s: string): (parts: seq<string>)
    ensures parts != [] ==> parts[0] <= s
    ensures s == "" ==> parts == [""]
    ensures |parts| >= 2 ==> parts[|parts| - 1] != ""
  {
    if FindFrom(s, 0).None? then [s] else DropTrailingEmpty(Pieces(s, 0))
  }

  /**
   * `getClearFileName` as written: element 0 of the split, or `None` where
   * Java throws ArrayIndexOutOfBoundsException because the array is empty.
   */
  function ClearFileNameOf(name: string): (clear: Option<string>)
    ensures clear.Some? ==> clear.value <= name
  {
    var parts := SplitArff(name);
    if parts == [] then None else Some(parts[0])
  }

  /** From `from` to the end, `s` is made of back-to-back matches only. */
  predicate SeparatorsOnly(s: string, from: nat)
    requires from <= |s|
    decreases |s| - from
  {
    from == |s| || (MatchesAt(s, from) && SeparatorsOnly(s, from + 5))
  }

  predicate AllEmpty(ps: seq<string>) {
    forall k :: 0 <= k < |ps| ==> ps[k] == ""
  }

  lemma {:induction false} PiecesAllEmpty(s: string, from: nat)
    requires from <= |s|
    ensures AllEmpty(Pieces(s, from)) <==> SeparatorsOnly(s, from)
    decreases |s| - from
  {
    match FindFrom(s, from)
    case None =>
      assert Pieces(s, from) == [s[from..]];
      if from < |s| {
        assert Pieces(s, from)[0] == s[from..] != "";
        assert !MatchesAt(s, from);
      }
    case Some(p) =>
      var ps := Pieces(s, from);
      assert ps == [s[from..p]] + Pieces(s, p + 5);
      PiecesAllEmpty(s, p + 5);
      if p == from {
        assert AllEmpty(ps) <==> AllEmpty(Pieces(s, p + 5)) by {
          if AllEmpty(Pieces(s, p + 5)) {
            forall k | 0 <= k < |ps| ensures ps[k] == "" {
              if k > 0 { assert ps[k] == Pieces(s, p + 5)[k - 1]; }
            }
          }
          if AllEmpty(ps) {
            var rest := Pieces(s, p + 5);
            forall k | 0 <= k < |rest| ensures rest[k] == "" {
              assert rest[k] == ps[k + 1];
            }
          }
        }
      } else {
        assert ps[0] != "";
        assert !MatchesAt(s, from);
      }
  }

  lemma DropTrailingEmptyNil(ps: seq<string>)
    ensures DropTrailingEmpty(ps) == [] <==> AllEmpty(ps)
  {
    var r := DropTrailingEmpty(ps);
    if r != [] {
      assert r[|r| - 1] == ps[|r| - 1];
    }
  }

  /** A name without any match is its own clear name. */
  lemma ClearFileNameNoMatch(name: string)
    requires forall j :: !MatchesAt(name, j)
    ensures ClearFileNameOf(name) == Some(name)
  {
    assert FindFrom(name, 0).None?;
  }

  /** With a first match at p > 0, the clear name is the text before it. */
  lemma ClearFileNameBeforeFirstMatch(name: string, p: nat)
    requires 0 < p && MatchesAt(name, p)
    requires forall j: nat :: j < p ==> !MatchesAt(name, j)
    ensures ClearFileNameOf(name) == Some(name[..p])
  {
    assert FindFrom(name, 0) == Some(p);
    var ps := Pieces(name, 0);
    assert ps[0] == name[..p] != "";
  }

  /**
   * getClearFileName throws exactly when the name is non-empty and consists
   * of matches of ".arff" only (".arff", "Xarff", ".arff.arff", ...).
   */
  lemma ClearFileNameThrows(name: string)
    ensures ClearFileNameOf(name).None? <==> name != "" && SeparatorsOnly(name, 0)
  {
    PiecesAllEmpty(name, 0);
    if FindFrom(name, 0).None? {
      assert SplitArff(name) == [name];
      if name != "" { assert !MatchesAt(name, 0); }
    } else {
      DropTrailingEmptyNil(Pieces(name, 0));
    }
  }

  /** A match at index 0 followed by more than separators gives the empty clear name. */
  lemma ClearFileNameLeadingMatch(name: string)
    requires MatchesAt(name, 0) && !SeparatorsOnly(name, 0)
    ensures ClearFileNameOf(name) == Some("")
  {
    ClearFileNameThrows(name);
    assert FindFrom(name, 0) == Some(0);
    assert Pieces(name, 0)[0] == "";
  }

  /** The four letters "arff" stand in `n` at index `j`. */
  predicate ArffAt(n: string, j: nat) {
    j + 4 <= |n| && n[j..j + 4] == "arff"
  }

  predicate ContainsArffFrom(n: string, from: nat) {
    exists j: nat :: from <= j < |n| && ArffAt(n, j)
  }

  /**
   * Round trip: a non-empty name in which "arff" starts at no index >= 1
   * comes back from its ".arff" form unchanged.
   */
  lemma ClearFileNameRoundTrip(n: string)
    requires n != "" && !ContainsArffFrom(n, 1)
    ensures ClearFileNameOf(n + FileTypeArff) == Some(n)
  {
    var s := n + FileTypeArff;
    assert s[|n|] == '.';
    assert MatchesAt(s, |n|) by {
      assert s[|n| + 1..|n| + 5] == "arff";
    }
    forall j: nat | j < |n| ensures !MatchesAt(s, j) {
      if MatchesAt(s, j) {
        var w := s[j + 1..j + 5];
        assert w == "arff";
        if j + 5 <= |n| {
          assert n[j + 1..j + 5] == w;
          assert ArffAt(n, j + 1);
        }
        // otherwise the '.' of the suffix would lie inside "arff"
      }
    }
    ClearFileNameBeforeFirstMatch(s, |n|);
    assert s[..|n|] == n;
  }

  /** The edge cases: ".arffX" clears to "", ".arff" and "Xarff" throw. */
  lemma ClearFileNameEdgeCases()
    ensures ClearFileNameOf(".arffX") == Some("")
    ensures ClearFileNameOf(".arff").None?
    ensures ClearFileNameOf("Xarff").None?
  {
    var t := ".arffX";
    assert |t| == 6 && t[0] == '.' && t[1..5] == "arff";
    assert MatchesAt(t, 0) && !MatchesAt(t, 5);
    ClearFileNameLeadingMatch(t);
    assert SeparatorsOnly(".arff", 5);
    ClearFileNameThrows(".arff");
    assert SeparatorsOnly("Xarff", 5);
    ClearFileNameThrows("Xarff");
  }

  /** A line terminator before "arff" is no match: U+000B and U+000C count as terminators on Android. */
  lemma ClearFileNameAfterTerminator()
    ensures ClearFileNameOf("\U{000B}arff") == Some("\U{000B}arff")
    ensures ClearFileNameOf("\U{000C}arff") == Some("\U{000C}arff")
  {
    var v, f := "\U{000B}arff", "\U{000C}arff";
    assert |v| == 5 && IsLineTerminator(v[0]);
    assert forall j :: !MatchesAt(v, j);
    ClearFileNameNoMatch(v);
    assert |f| == 5 && IsLineTerminator(f[0]);
    assert forall j :: !MatchesAt(f, j);
    ClearFileNameNoMatch(f);
  }

  /**
   * An "arff" inside the name cuts it short: the clear name of
   * "myarffdata.arff" is "m", not "myarffdata".
   */
  lemma ClearFileNameCutsAtInnerArff()
    ensures ClearFileNameOf("myarffdata.arff") == Some("m")
  {
    var s := "myarffdata.arff";
    assert s[1] == 'y';
    assert !MatchesAt(s, 0);
    assert s[2..6] == "arff";
    assert MatchesAt(s, 1);
    ClearFileNameBeforeFirstMatch(s, 1);
    assert s[..1] == "m";
  }

  /** The evidently intended clear name: the name with a literal ".arff" suffix removed. */
  function StripFileType(name: string): (clear: string)
    ensures clear <= name
    ensures clear == name <==> !(|name| >= 5 && name[|name| - 5..] == FileTypeArff)
    ensures clear != name ==> clear + FileTypeArff == name
  {
    if |name| >= 5 && name[|name| - 5..] == FileTypeArff then name[..|name| - 5] else name
  }

  /** Round trip of the intended clear name, for every name. */
  lemma StripFileTypeRoundTrip(n: string)
    ensures StripFileType(n + FileTypeArff) == n
  {
    var s := n + FileTypeArff;
    assert s[|s| - 5..] == FileTypeArff;
    assert s[..|s| - 5] == n;
  }

  /**
   * A file record. Java's `ArffFile` with the fields strFileName, strContext
   * and strFileContent.
   */
  class ArffFile {
    var fileName: string
    var context: string
    var fileContent: string

    /** All three fields start out empty. */
    predicate IsDefault()
      reads this
    {
      fileName == "" && context == "" && fileContent == ""
    }

    /** `new ArffFile()`. */
    constructor ()
      ensures IsDefault()
    {
      fileName, context, fileContent := "", "", "";
    }

    /** `new ArffFile(name, content)`: the name is stored without a suffix. */
    constructor WithContent(name: string, content: string)
      ensures fileName == name && fileContent == content && context == ""
    {
      fileName, context, fileContent := name, "", content;
    }

    function FileName(): string
      reads this
    {
      fileName
    }

    function FileContent(): string
      reads this
    {
      fileContent
    }

    function Context(): string
      reads this
    {
      context
    }

    /** `getClearFileName`: reads the stored name and leaves it as it is. */
    function ClearFileName(): (clear: Option<string>)
      reads this
      ensures clear.Some? ==> clear.value <= fileName
    {
      ClearFileNameOf(fileName)
    }

    /** `setStrFileName`: stores the name, with ".arff" attached when asked. */
    method SetFileName(name: string, attachFileType: bool)
      modifies this
      ensures FileName() == if attachFileType then name + FileTypeArff else name
      ensures context == old(context) && fileContent == old(fileContent)
    {
      if attachFileType {
        fileName := name + FileTypeArff;
      } else {
        fileName := name;
      }
    }

    /** `setStrFileContent`. */
    method SetFileContent(content: string)
      modifies this
      ensures FileContent() == content
      ensures fileName == old(fileName) && context == old(context)
    {
      fileContent := content;
    }

    /** `setStrContext`. */
    method SetContext(ctx: string)
      modifies this
      ensures Context() == ctx
      ensures fileName == old(fileName) && fileContent == old(fileContent)
    {
      context := ctx;
    }
  }
}

=== FILE: device.dfy ===
/**
 * The parts of the Android platform the data collector touches, reduced to
 * their effect on stored text: the app's private files directory (the
 * `Context` file calls), the external storage volume with its directories,
 * and the state that `Environment.getExternalStorageState` reports.
 *
 * Files hold the text that was written to them. The app writes and reads
 * through the platform's default charset (UTF-8), so a file's text is also
 * what a reader decodes from it, and its length in bytes is the UTF-8 length
 * of that text.
 */
module Platform {
  import opened JavaText

  /** The values `Environment.getExternalStorageState` can report. */
  datatype StorageState =
    | Mounted
    | MountedReadOnly
    | Unmounted
    | Removed
    | Checking
    | NoFileSystem
    | Shared
    | BadRemoval
    | Unmountable
    | Ejecting
    | Unknown

  datatype Volume = Internal | External

  /** An open `FileOutputStream`: writes go to the end of what the file holds. */
  datatype OutputStream = OutputStream(volume: Volume, path: string)

  /** An open `FileInputStream`: the text it delivers, or a read that fails with an IOException. */
  datatype InputStream = Readable(text: string) | Broken

  /**
   * A name that denotes a regular file directly inside a directory. An empty
   * name, "." or ".." denote a directory, on which opening a stream fails;
   * `Context.openFileOutput` and `openFileInput` reject a name with '/'.
   */
  predicate IsPlainFileName(name: string) {
    name != "" && name != "." && name != ".." && '/' !in name
  }

  /** The file map after writing `text` at the end of the file `name`. */
  function WrittenAtEnd(files: map<string, string>, name: string, text: string): (r: map<string, string>)
    requires name in files
    ensures r.Keys == files.Keys
    ensures r[name] == files[name] + text
    ensures forall n :: n in files && n != name ==> r[n] == files[n]
  {
    files[name := files[name] + text]
  }

  /**
   * What opening `name` for output leaves in the file before anything is
   * written: nothing when truncating (MODE_PRIVATE), the old text when
   * appending (MODE_APPEND); a missing file is created empty.
   */
  function OpenedText(files: map<string, string>, name: string, append: bool): string
  {
    if append && name in files then files[name] else ""
  }

  class Device {
    /** The app's private files directory: file name to text. */
    var files: map<string, string>
    /** Files on external storage: absolute path to text. */
    var external: map<string, string>
    /** Directories on external storage. */
    var dirs: set<string>
    var state: StorageState
    /** `Environment.getExternalStorageDirectory().getAbsolutePath()`. */
    const externalRoot: string

    constructor (files: map<string, string>, root: string, state: StorageState)
      ensures this.files == files && external == map[] && dirs == {root}
      ensures externalRoot == root && this.state == state
    {
      this.files := files;
      external := map[];
      dirs := {root};
      externalRoot := root;
      this.state := state;
    }

    /** `Context.openFileInput`: fails with FileNotFoundException when there is no such file. */
    method OpenFileInput(name: string) returns (s: Option<InputStream>)
      ensures s.Some? <==> IsPlainFileName(name) && name in files
      ensures s.Some? ==> s.value == Readable(files[name])
    {
      if IsPlainFileName(name) && name in files {
        s := Some(Readable(files[name]));
      } else {
        s := None;
      }
    }

    /**
     * `Context.openFileOutput(name, mode)`: creates the file, truncating it
     * unless `append`; fails when the name does not denote a plain file.
     */
    method OpenFileOutput(name: string, append: bool) returns (s: Option<OutputStream>)
      modifies this
      ensures s.Some? <==> IsPlainFileName(name)
      ensures s.Some? ==> s.value == OutputStream(Internal, name)
      ensures files == if s.Some? then old(files)[name := OpenedText(old(files), name, append)] else old(files)
      ensures external == old(external) && dirs == old(dirs) && state == old(state)
    {
      if IsPlainFileName(name) {
        files := files[name := OpenedText(files, name, append)];
        s := Some(OutputStream(Internal, name));
      } else {
        s := None;
      }
    }

    /**
     * `new FileOutputStream(new File(dir, name))` on external storage: fails
     * when the directory is missing or the name does not denote a plain file
     * there; otherwise creates or truncates the file.
     */
    method OpenExternalOutput(dir: string, name: string) returns (s: Option<OutputStream>)
      modifies this
      ensures s.Some? <==> dir in dirs && IsPlainFileName(name) && dir + "/" + name !in dirs
      ensures s.Some? ==> s.value == OutputStream(External, dir + "/" + name)
      ensures external == if s.Some? then old(external)[dir + "/" + name := ""] else old(external)
      ensures files == old(files) && dirs == old(dirs) && state == old(state)
    {
      var path := dir + "/" + name;
      if dir in dirs && IsPlainFileName(name) && path !in dirs {
        external := external[path := ""];
        s := Some(OutputStream(External, path));
      } else {
        s := None;
      }
    }

    /** The stream's file exists, as it does from the moment it was opened. */
    predicate IsOpen(s: OutputStream)
      reads this
    {
      match s.volume
      case Internal => s.path in files
      case External => s.path in external
    }

    /** `Writer.write` then `close`: the text lands at the end of the file. */
    method Write(s: OutputStream, text: string)
      requires IsOpen(s)
      modifies this
      ensures s.volume == Internal ==> files == WrittenAtEnd(old(files), s.path, text) && external == old(external)
      ensures s.volume == External ==> external == WrittenAtEnd(old(external), s.path, text) && files == old(files)
      ensures dirs == old(dirs) && state == old(state)
    {
      match s.volume
      case Internal => files := WrittenAtEnd(files, s.path, text);
      case External => external := WrittenAtEnd(external, s.path, text);
    }

    /** `File.delete` on a file of the private directory: true exactly when there was one. */
    method Delete(name: string) returns (deleted: bool)
      modifies this
      ensures deleted <==> name in old(files)
      ensures files == old(files) - {name}
      ensures external == old(external) && dirs == old(dirs) && state == old(state)
    {
      deleted := name in files;
      files := files - {name};
    }

    /** `File.mkdirs`: creates every directory in `chain` that is missing. */
    method MakeDirs(chain: set<string>)
      modifies this
      ensures dirs == old(dirs) + chain
      ensures files == old(files) && external == old(external) && state == old(state)
    {
      dirs := dirs + chain;
    }
  }
}

=== FILE: file_handler.dfy ===
/**
 * The process-wide holder of the one "current" ARFF file. Java keeps the
 * single `FileHandler` in a static field that `getInstance` fills on first
 * use; Dafny has no static fields, so that field lives in a holder object
 * shared by everything that calls `getInstance`.
 */
module Controller {
  import opened Files

  class FileHandler {
    var currentArffFile: ArffFile?

    /** The private constructor: the current file starts out as a default `ArffFile`. */
    constructor ()
      ensures currentArffFile != null && fresh(currentArffFile) && currentArffFile.IsDefault()
    {
      currentArffFile := new ArffFile();
    }

    function GetCurrentArffFile(): ArffFile?
      reads this
    {
      currentArffFile
    }

    /** `setCurrentArffFile`: stores its argument, null included, without looking at it. */
    method SetCurrentArffFile(arffFile: ArffFile?)
      modifies this
      ensures GetCurrentArffFile() == arffFile
    {
      currentArffFile := arffFile;
    }
  }

  /** The static field `FileHandler.instance`. */
  class FileHandlerHolder {
    var instance: FileHandler?

    /** Before the first `getInstance` there is no instance. */
    constructor ()
      ensures instance == null
    {
      instance := null;
    }

    /**
     * `getInstance`: creates the handler only when there is none yet; every
     * call returns the handler the holder keeps.
     */
    method GetInstance() returns (handler: FileHandler)
      modifies this
      ensures instance == handler
      ensures old(instance) != null ==> handler == old(instance)
      ensures old(instance) == null ==>
        fresh(handler) && fresh(handler.currentArffFile) &&
        handler.currentArffFile != null && handler.currentArffFile.IsDefault()
    {
      if instance == null {
        instance := new FileHandler();
      }
      handler := instance;
    }
  }
}

=== FILE: file_service.dfy ===
/**
 * The file service: saves, appends to, loads, sizes, deletes and exports ARFF
 * files. Every operation acts on the device it was bound to.
 */
module Services {
  import opened JavaText
  import opened Files
  import opened LineReader
  import opened Platform

  /** The directory exports go to, below the external storage root. */
  function ExportDir(root: string): string
  {
    root + "/android/data/arffExport/files"
  }

  /** Where a file named `name` is exported to. */
  function ExportPath(root: string, name: string): (path: string)
    ensures |path| == |ExportDir(root)| + 1 + |name|
    ensures path[..|ExportDir(root)| + 1] == ExportDir(root) + "/"
    ensures path[|ExportDir(root)| + 1..] == name
  {
    ExportDir(root) + "/" + name
  }

  /** Records with different names never export to the same file. */
  lemma ExportPathInjective(root: string, a: string, b: string)
    requires a != b
    ensures ExportPath(root, a) != ExportPath(root, b)
  {
  }

  /** The directories `mkdirs` on the export directory makes sure exist. */
  function ExportDirChain(root: string): (chain: set<string>)
    ensures ExportDir(root) in chain
  {
    {root, root + "/android", root + "/android/data", root + "/android/data/arffExport", ExportDir(root)}
  }

  /** A file's size as `calcFileSize` reports it: whole KB, 0 for a missing file. */
  function SizeInKb(files: map<string, string>, name: string): nat
  {
    if name in files then Utf8Length(files[name]) / 1024 else 0
  }

  /**
   * The reported size lies between the size of one byte per character and
   * that of four bytes per character.
   */
  lemma SizeInKbBounds(files: map<string, string>, name: string)
    requires name in files
    ensures |files[name]| / 1024 <= SizeInKb(files, name) <= 4 * |files[name]| / 1024
  {
    Utf8LengthBounds(files[name]);
  }

  /** Whether the export writes: only with read and write access, that is state MEDIA_MOUNTED. */
  function CanExport(state: StorageState): (ok: bool)
    ensures ok <==> state == Mounted
  {
    var canRead := state == Mounted || state == MountedReadOnly;
    var canWrite := state == Mounted;
    canRead && canWrite
  }

  datatype Outcome = Done | IOException

  class FileService {
    const device: Device

    constructor (device: Device)
      ensures this.device == device
    {
      this.device := device;
    }

    /** `saveAFile`: writes the record's content, and not its name, to the stream. */
    method SaveAFile(arffFile: ArffFile, out: OutputStream)
      requires device.IsOpen(out)
      modifies device
      ensures out.volume == Internal ==>
        device.files == WrittenAtEnd(old(device.files), out.path, arffFile.fileContent) && device.external == old(device.external)
      ensures out.volume == External ==>
        device.external == WrittenAtEnd(old(device.external), out.path, arffFile.fileContent) && device.files == old(device.files)
      ensures device.dirs == old(device.dirs) && device.state == old(device.state)
    {
      device.Write(out, arffFile.FileContent());
    }

    /** `appendToFile`: writes exactly the record string to the stream. */
    method AppendToFile(record: string, out: OutputStream)
      requires device.IsOpen(out)
      modifies device
      ensures out.volume == Internal ==>
        device.files == WrittenAtEnd(old(device.files), out.path, record) && device.external == old(device.external)
      ensures out.volume == External ==>
        device.external == WrittenAtEnd(old(device.external), out.path, record) && device.files == old(device.files)
      ensures device.dirs == old(device.dirs) && device.state == old(device.state)
    {
      device.Write(out, record);
    }

    /**
     * `loadFileFromDevice`: reads the stream line by line and returns a new
     * record, with empty name and context, whose content is every line
     * followed by "\n"; null when reading fails.
     */
    method LoadFileFromDevice(input: InputStream) returns (arffFile: ArffFile?)
      ensures input.Broken? ==> arffFile == null
      ensures input.Readable? ==>
        arffFile != null && fresh(arffFile) &&
        arffFile.fileName == "" && arffFile.context == "" &&
        arffFile.fileContent == LoadedText(input.text)
    {
      if input.Broken? {
        return null;
      }
      var unread := input.text;
      var builder := "";
      var eof := false;
      while !eof
        invariant eof ==> unread == ""
        invariant builder + LoadedText(unread) == LoadedText(input.text)
        decreases |unread|, !eof
      {
        var readLine := ReadLine(unread);
        if readLine.Some? {
          LoadedTextStep(unread);
          builder := builder + readLine.value.0 + "\n";
          unread := readLine.value.1;
        } else {
          eof := true;
        }
      }
      arffFile := new ArffFile();
      arffFile.SetFileContent(builder);
    }

    /**
     * `exportAFileToSdCard`: with storage mounted read-write, creates the
     * export directories and writes the record's content verbatim to
     * <root>/android/data/arffExport/files/<file name>; in every other
     * storage state it does nothing and throws nothing.
     */
    method ExportAFileToSdCard(arffFile: ArffFile) returns (outcome: Outcome)
      modifies device
      ensures device.files == old(device.files) && device.state == old(device.state)
      ensures !CanExport(old(device.state)) ==>
        outcome == Done && device.external == old(device.external) && device.dirs == old(device.dirs)
      ensures CanExport(old(device.state)) ==>
        device.dirs == old(device.dirs) + ExportDirChain(device.externalRoot)
      ensures CanExport(old(device.state)) ==>
        var target := ExportPath(device.externalRoot, arffFile.fileName);
        if IsPlainFileName(arffFile.fileName) && target !in old(device.dirs) then
          outcome == Done && device.external == old(device.external)[target := arffFile.fileContent]
        else
          outcome == IOException && device.external == old(device.external)
    {
      outcome := Done;
      if CanExport(device.state) {
        var appDir := ExportDir(device.externalRoot);
        device.MakeDirs(ExportDirChain(device.externalRoot));
        outcome := CreateAndSaveFile(appDir, arffFile);
      }
    }

    /** `createAndSaveFile`: a new file named after the record in `appDir`, holding its content. */
    method CreateAndSaveFile(appDir: string, arffFile: ArffFile) returns (outcome: Outcome)
      modifies device
      ensures device.files == old(device.files) && device.dirs == old(device.dirs) && device.state == old(device.state)
      ensures
        var target := appDir + "/" + arffFile.fileName;
        if appDir in old(device.dirs) && IsPlainFileName(arffFile.fileName) && target !in old(device.dirs) then
          outcome == Done && device.external == old(device.external)[target := arffFile.fileContent]
        else
          outcome == IOException && device.external == old(device.external)
    {
      var out := device.OpenExternalOutput(appDir, arffFile.FileName());
      if out.None? {
        return IOException;
      }
      SaveAFile(arffFile, out.value);
      assert "" + arffFile.fileContent == arffFile.fileContent;
      outcome := Done;
    }

    /** `calcFileSize`: the file's length in bytes divided by 1024, 0 for a missing file. */
    method CalcFileSize(fileName: string) returns (kb: int)
      ensures kb == SizeInKb(device.files, fileName)
      ensures fileName !in device.files ==> kb == 0
      ensures fileName in device.files ==>
        kb * 1024 <= Utf8Length(device.files[fileName]) < (kb + 1) * 1024
    {
      kb := SizeInKb(device.files, fileName);
    }

    /** `deleteFile`: true exactly when the file was there; afterwards it is gone. */
    method DeleteFile(fileName: string) returns (deleted: bool)
      modifies device
      ensures deleted <==> fileName in old(device.files)
      ensures fileName !in device.files
      ensures device.files == old(device.files) - {fileName}
      ensures device.external == old(device.external) && device.dirs == old(device.dirs)
      ensures device.state == old(device.state)
    {
      deleted := device.Delete(fileName);
    }
  }

  /** Appending never shrinks the reported size. */
  lemma SizeGrowsWithAppend(files: map<string, string>, name: string, text: string)
    requires name in files
    ensures SizeInKb(files, name) <= SizeInKb(WrittenAtEnd(files, name, text), name)
  {
    Utf8LengthAppend(files[name], text);
  }

  /** Every kilobyte counted is one written: an ASCII file of n characters reports n / 1024. */
  lemma SizeOfAsciiFile(files: map<string, string>, name: string)
    requires name in files && IsAscii(files[name])
    ensures SizeInKb(files, name) == |files[name]| / 1024
  {
    Utf8LengthAscii(files[name]);
  }
}

=== FILE: java_text.dfy ===
/**
 * Text primitives of the Java platform that the data collector relies on:
 * an optional value (Java's null), the decimal rendering of `Long.toString`,
 * and the number of bytes a string takes in the UTF-8 files the app writes.
 */
module JavaText {

  datatype Option<T> = None | Some(value: T)

  /** The character of a decimal digit 0..9. */
  function DigitChar(d: nat): (c: char)
    requires d < 10
    ensures '0' <= c <= '9'
  {
    "0123456789"[d]
  }

  /** The value of a decimal digit character. */
  function DigitValue(c: char): (d: nat)
    requires '0' <= c <= '9'
    ensures d < 10
  {
    (c as int) - ('0' as int)
  }

  predicate IsDigits(s: string) {
    s != [] && forall i :: 0 <= i < |s| ==> '0' <= s[i] <= '9'
  }

  /** Shortest decimal rendering of a natural number, most significant digit first. */
  function NatToDecimal(n: nat): (s: string)
    ensures IsDigits(s)
    ensures |s| > 1 ==> s[0] != '0'
  {
    if n < 10 then [DigitChar(n)] else NatToDecimal(n / 10) + [DigitChar(n % 10)]
  }

  /** The number a string of decimal digits denotes. */
  function DecimalValue(s: string): nat
    requires IsDigits(s)
  {
    if |s| == 1 then DigitValue(s[0])
    else DecimalValue(s[..|s| - 1]) * 10 + DigitValue(s[|s| - 1])
  }

  /** `Long.toString`: a leading '-' for negative values, then the digits. */
  function LongToString(n: int): (s: string)
  {
    if n < 0 then "-" + NatToDecimal(-n) else NatToDecimal(n)
  }

  lemma DigitRoundTrip(d: nat)
    requires d < 10
    ensures DigitValue(DigitChar(d)) == d
  {
  }

  /** Reading the rendered digits back gives the number that was rendered. */
  lemma {:induction false} DecimalRoundTrip(n: nat)
    ensures DecimalValue(NatToDecimal(n)) == n
  {
    if n < 10 {
      DigitRoundTrip(n);
    } else {
      var s := NatToDecimal(n);
      assert s[..|s| - 1] == NatToDecimal(n / 10);
      DecimalRoundTrip(n / 10);
      DigitRoundTrip(n % 10);
    }
  }

  /** Number of bytes the UTF-8 encoding of one Unicode scalar value takes. */
  function Utf8Width(c: char): (w: nat)
    ensures 1 <= w <= 4
  {
    if c as int < 0x80 then 1
    else if c as int < 0x800 then 2
    else if c as int < 0x1_0000 then 3
    else 4
  }

  /** Byte length of the UTF-8 encoding of a string. */
  function Utf8Length(s: string): nat
  {
    if s == [] then 0 else Utf8Length(s[..|s| - 1]) + Utf8Width(s[|s| - 1])
  }

  predicate IsAscii(s: string) {
    forall i :: 0 <= i < |s| ==> s[i] as int < 0x80
  }

  /** The encoding of a concatenation is the concatenation of the encodings. */
  lemma {:induction false} Utf8LengthAppend(a: string, b: string)
    ensures Utf8Length(a + b) == Utf8Length(a) + Utf8Length(b)
    decreases |b|
  {
    if b == [] {
      assert a + b == a;
    } else {
      var b' := b[..|b| - 1];
      assert (a + b)[..|a + b| - 1] == a + b';
      Utf8LengthAppend(a, b');
    }
  }

  /** Between one and four bytes per character. */
  lemma {:induction false} Utf8LengthBounds(s: string)
    ensures |s| <= Utf8Length(s) <= 4 * |s|
  {
    if s != [] {
      Utf8LengthBounds(s[..|s| - 1]);
    }
  }

  /** ASCII text takes one byte per character. */
  lemma {:induction false} Utf8LengthAscii(s: string)
    requires IsAscii(s)
    ensures Utf8Length(s) == |s|
  {
    if s != [] {
      Utf8LengthAscii(s[..|s| - 1]);
    }
  }
}

=== FILE: line_reader.dfy ===
/**
 * The line-splitting rule of `BufferedReader.readLine`: a line ends at '\n',
 * at '\r', or at the pair "\r\n" (consumed as one terminator); the terminator
 * is not part of the line; a last line without a terminator is still
 * returned; at the end of the text there is no line (Java's null).
 *
 * `LoadedText` is what the file service's load loop builds from a file:
 * every line read, each followed by "\n".
 */
module LineReader {
  import opened JavaText

  predicate IsEol(c: char) {
    c == '\n' || c == '\r'
  }

  /** Index of the first terminator at or after `i`, or |s| when there is none. */
  function LineEnd(s: string, i: nat): (k: nat)
    requires i <= |s|
    ensures i <= k <= |s|
    ensures k < |s| ==> IsEol(s[k])
    ensures forall j :: i <= j < k ==> !IsEol(s[j])
    decreases |s| - i
  {
    if i == |s| || IsEol(s[i]) then i else LineEnd(s, i + 1)
  }

  /**
   * One call of `readLine` on the unread text `s`: `None` at the end of the
   * text, otherwise the line and the text left unread after its terminator.
   */
  function ReadLine(s: string): (r: Option<(string, string)>)
    ensures r.None? <==> s == ""
    ensures r.Some? ==> |r.value.1| < |s|
    ensures r.Some? ==> forall j :: 0 <= j < |r.value.0| ==> !IsEol(r.value.0[j])
    ensures r.Some? ==> r.value.0 <= s && (|r.value.0| == |s| || IsEol(s[|r.value.0|]))
    ensures r.Some? && |r.value.0| == |s| ==> r.value.1 == ""
    ensures r.Some? && |r.value.0| < |s| ==>
      var k := |r.value.0|;
      r.value.1 == if s[k] == '\r' && k + 1 < |s| && s[k + 1] == '\n' then s[k + 2..] else s[k + 1..]
  {
    if s == "" then None
    else
      var k := LineEnd(s, 0);
      var rest :=
        if k == |s| then ""
        else if s[k] == '\r' && k + 1 < |s| && s[k + 1] == '\n' then s[k + 2..]
        else s[k + 1..];
      Some((s[..k], rest))
  }

  /** All lines `readLine` returns before it returns null. */
  function Lines(s: string): seq<string>
    decreases |s|
  {
    match ReadLine(s)
    case None => []
    case Some((line, rest)) => [line] + Lines(rest)
  }

  /** Each line followed by "\n", in order. */
  function JoinLines(lines: seq<string>): string
  {
    if lines == [] then "" else lines[0] + "\n" + JoinLines(lines[1..])
  }

  predicate NoCr(s: string) {
    '\r' !in s
  }

  /** The text the load loop builds from a file holding `s`; no '\r' survives. */
  function LoadedText(s: string): (t: string)
    ensures NoCr(t)
  {
    LinesHaveNoEol(s);
    JoinLinesNoCr(Lines(s));
    JoinLines(Lines(s))
  }

  /** Every line terminator ("\r\n", a lone '\r' or '\n') written as one '\n'. */
  function NormalizeEol(s: string): (t: string)
    ensures NoCr(t) && |t| <= |s|
    decreases |s|
  {
    if s == "" then ""
    else if s[0] == '\r' then
      "\n" + NormalizeEol(if |s| > 1 && s[1] == '\n' then s[2..] else s[1..])
    else [s[0]] + NormalizeEol(s[1..])
  }

  /** Text without '\r' is already normal. */
  lemma {:induction false} NormalizeEolNoCr(s: string)
    requires NoCr(s)
    ensures NormalizeEol(s) == s
    decreases |s|
  {
    if s != "" {
      NoCrSuffix(s, 1);
      NormalizeEolNoCr(s[1..]);
      assert [s[0]] + s[1..] == s;
    }
  }

  /** A stretch without terminators passes through unchanged. */
  lemma {:induction false} NormalizeEolLine(line: string, u: string)
    requires forall j :: 0 <= j < |line| ==> !IsEol(line[j])
    ensures NormalizeEol(line + u) == line + NormalizeEol(u)
    decreases |line|
  {
    if line != "" {
      var t := line + u;
      assert t[0] == line[0] && t[1..] == line[1..] + u;
      assert !IsEol(line[0]);
      NormalizeEolLine(line[1..], u);
      calc {
        NormalizeEol(t);
        [t[0]] + NormalizeEol(t[1..]);
        [line[0]] + NormalizeEol(line[1..] + u);
        [line[0]] + (line[1..] + NormalizeEol(u));
        { assert [line[0]] + line[1..] == line; }
        line + NormalizeEol(u);
      }
    } else {
      assert line + u == u;
    }
  }

  /** A terminator at the front becomes one '\n'; "\r\n" counts as one terminator. */
  lemma NormalizeEolAtEol(t: string)
    requires t != "" && IsEol(t[0])
    ensures NormalizeEol(t) ==
      "\n" + NormalizeEol(if t[0] == '\r' && 1 < |t| && t[1] == '\n' then t[2..] else t[1..])
  {
  }

  lemma PrefixThenRest(s: string, p: string)
    requires p <= s
    ensures s == p + s[|p|..]
  {
  }

  /** Normalising the text of one `readLine` call: the line, one '\n', the rest normalised. */
  lemma NormalizeEolStep(s: string, line: string, rest: string)
    requires ReadLine(s) == Some((line, rest))
    ensures |line| == |s| ==> NormalizeEol(s) == line
    ensures |line| < |s| ==> NormalizeEol(s) == line + "\n" + NormalizeEol(rest)
  {
    var k := |line|;
    var t := s[k..];
    PrefixThenRest(s, line);
    NormalizeEolLine(line, t);
    if k < |s| {
      NormalizeEolAtEol(t);
      var after := if t[0] == '\r' && 1 < |t| && t[1] == '\n' then t[2..] else t[1..];
      assert after == rest by {
        assert t[0] == s[k];
        if 1 < |t| { assert t[1] == s[k + 1]; }
      }
      var n := NormalizeEol(rest);
      assert NormalizeEol(t) == "\n" + n;
      assert line + ("\n" + n) == line + "\n" + n;
    } else {
      assert t == "" && NormalizeEol(t) == "";
      assert line + NormalizeEol(t) == line;
    }
  }

  /**
   * The load loop writes every terminator as one '\n' and ends non-empty
   * text with a '\n'.
   */
  lemma {:induction false} LoadedTextNormalizes(s: string)
    ensures LoadedText(s) == WithFinalNewline(NormalizeEol(s))
    decreases |s|
  {
    if s != "" {
      var (line, rest) := ReadLine(s).value;
      LoadedTextStep(s);
      NormalizeEolStep(s, line, rest);
      if |line| == |s| {
        assert Lines(rest) == [];
        assert s[|s| - 1] == line[|line| - 1];
      } else {
        LoadedTextNormalizes(rest);
        FinalNewlineAfterLine(line, NormalizeEol(rest));
      }
    }
  }

  /** The normal form of '\r'-free text: empty, or ending in exactly the newline it had or gained. */
  function WithFinalNewline(s: string): (t: string)
    ensures s == "" ==> t == ""
    ensures s != "" ==> s <= t && |t| - |s| <= 1 && t[|t| - 1] == '\n'
  {
    if s == "" || s[|s| - 1] == '\n' then s else s + "\n"
  }

  /** One step of the load loop: the first line, its '\n', then the rest loaded. */
  lemma LoadedTextStep(s: string)
    requires s != ""
    ensures LoadedText(s) == ReadLine(s).value.0 + "\n" + LoadedText(ReadLine(s).value.1)
  {
    var (line, rest) := ReadLine(s).value;
    assert Lines(s) == [line] + Lines(rest);
    assert Lines(s)[1..] == Lines(rest);
  }

  /** "\r\n" is one terminator and a lone '\r' another: "a\r\nb\rc" normalises to "a\nb\nc". */
  lemma NormalizeEolMixedTerminators()
    ensures NormalizeEol("a\r\nb\rc") == "a\nb\nc"
  {
    var c, rc, brc, crlf := "c", "\rc", "b\rc", "\r\nb\rc";
    assert c[1..] == "" && NormalizeEol(c) == "c";
    assert rc[1..] == c && NormalizeEol(rc) == "\nc";
    assert brc[1..] == rc && NormalizeEol(brc) == "b\nc";
    assert crlf[2..] == brc && NormalizeEol(crlf) == "\nb\nc";
    var s := "a\r\nb\rc";
    assert s[1..] == crlf;
  }

  /**
   * For text without '\r', loading only adds a final '\n' where it is
   * missing: an empty file gives "", text ending in '\n' is unchanged, other
   * text gains one '\n'.
   */
  lemma LoadedTextNoCr(s: string)
    requires NoCr(s)
    ensures LoadedText(s) == WithFinalNewline(s)
  {
    LoadedTextNormalizes(s);
    NormalizeEolNoCr(s);
  }

  lemma FinalNewlineAfterLine(line: string, rest: string)
    ensures line + "\n" + WithFinalNewline(rest) == WithFinalNewline(line + "\n" + rest)
  {
    var s := line + "\n" + rest;
    if rest == "" {
      assert s[|s| - 1] == '\n';
    } else {
      assert s[|s| - 1] == rest[|rest| - 1];
      if rest[|rest| - 1] != '\n' {
        assert line + "\n" + (rest + "\n") == s + "\n";
      }
    }
  }

  lemma NoCrSuffix(s: string, i: nat)
    requires NoCr(s) && i <= |s|
    ensures NoCr(s[i..])
  {
    var t := s[i..];
    forall j | 0 <= j < |t| ensures t[j] != '\r' {
      assert t[j] == s[i + j];
    }
  }

  lemma {:induction false} JoinLinesNoCr(lines: seq<string>)
    requires forall i :: 0 <= i < |lines| ==> NoCr(lines[i])
    ensures NoCr(JoinLines(lines))
  {
    if lines != [] {
      JoinLinesNoCr(lines[1..]);
      var rest := JoinLines(lines[1..]);
      var t := lines[0] + "\n" + rest;
      forall j | 0 <= j < |t| ensures t[j] != '\r' {
        if j < |lines[0]| {
          assert t[j] == lines[0][j];
        } else if j > |lines[0]| {
          assert t[j] == rest[j - |lines[0]| - 1];
        }
      }
    }
  }

  lemma {:induction false} LinesHaveNoEol(s: string)
    ensures forall i :: 0 <= i < |Lines(s)| ==> NoCr(Lines(s)[i])
    decreases |s|
  {
    match ReadLine(s)
    case None =>
    case Some((line, rest)) =>
      LinesHaveNoEol(rest);
      assert Lines(s) == [line] + Lines(rest);
  }

  /** Loading what a load produced changes nothing more. */
  lemma LoadedTextIdempotent(s: string)
    ensures LoadedText(LoadedText(s)) == LoadedText(s)
  {
    var t := LoadedText(s);
    LoadedTextNoCr(t);
    LoadedTextEndsInNewline(s);
  }

  /** Loaded text is empty exactly for an empty file, and otherwise ends in '\n'. */
  lemma LoadedTextEndsInNewline(s: string)
    ensures LoadedText(s) == "" <==> s == ""
    ensures s != "" ==> LoadedText(s)[|LoadedText(s)| - 1] == '\n'
  {
    if s != "" {
      match ReadLine(s)
      case Some((line, rest)) =>
        assert Lines(s) == [line] + Lines(rest);
        var tail := JoinLines(Lines(rest));
        assert LoadedText(s) == line + "\n" + tail;
        if tail != "" {
          LoadedTextEndsInNewline(rest);
        }
    }
  }
}

=== FILE: main_activity.dfy ===
/**
 * The activity that turns sensor samples into rows of the ARFF data file:
 * the row-building helpers (extremes of a sample, the movement label, the
 * size label), the fixed ARFF header, and the handlers that create, load,
 * append to, delete and export the data file.
 *
 * A float enters the model as the text `Float.toString` gives for it: a
 * non-empty numeral without ',' or line breaks.
 */
module Activities {
  import opened JavaText
  import opened Files
  import opened LineReader
  import opened Platform
  import opened Services
  import opened Controller

  /** The one data file the app writes. */
  const FileName: string := "acc-data,walking,jogging,sport.arff"

  /** The data file's name can be opened: it is neither empty nor a directory name and holds no '/'. */
  lemma DataFileNameIsPlain()
    ensures IsPlainFileName(FileName)
  {
  }

  /** One attribute declaration of an ARFF header: "@attribute", its name and its type, on one line. */
  function AttributeLine(name: string, kind: string): string {
    "@attribute " + name + " " + kind + "\n"
  }

  // The lines of the ARFF header of a new data file.
  const RelationLine: string := "@relation detectSportType\n"
  const BlankLine: string := "\n"
  const MeanLine: string := AttributeLine("mean", "numeric")
  const StdDeviationLine: string := AttributeLine("stdDeviation", "numeric")
  const MinLine: string := AttributeLine("min", "numeric")
  const MaxLine: string := AttributeLine("max", "numeric")
  const MovementTypeLine: string := AttributeLine("movementType", "{walking,jogging,sport}")
  const SensorLine: string := AttributeLine("sensor", "{accelerometer,gyroscope}")
  const DataLine: string := "@data"

  /** The ARFF header of a new data file; it ends in "@data" without a newline. */
  const ArffHeader: string :=
    RelationLine + BlankLine + MeanLine + StdDeviationLine + MinLine + MaxLine
    + MovementTypeLine + SensorLine + BlankLine + DataLine

  lemma NoCrConcat(a: string, b: string)
    requires NoCr(a) && NoCr(b)
    ensures NoCr(a + b)
  {
    assert forall i :: 0 <= i < |a + b| ==> (a + b)[i] == if i < |a| then a[i] else b[i - |a|];
  }

  lemma AttributeLineNoCr(name: string, kind: string)
    requires NoCr(name) && NoCr(kind)
    ensures NoCr(AttributeLine(name, kind))
  {
    NoCrConcat("@attribute ", name);
    NoCrConcat("@attribute " + name, " ");
    NoCrConcat("@attribute " + name + " ", kind);
    NoCrConcat("@attribute " + name + " " + kind, "\n");
  }

  lemma HeaderLinesHaveNoCr()
    ensures NoCr(RelationLine) && NoCr(BlankLine) && NoCr(DataLine)
    ensures NoCr(MeanLine) && NoCr(StdDeviationLine) && NoCr(MinLine) && NoCr(MaxLine)
    ensures NoCr(MovementTypeLine) && NoCr(SensorLine)
  {
    assert NoCr(RelationLine) && NoCr(BlankLine) && NoCr(DataLine);
    assert NoCr("numeric");
    AttributeLineNoCr("mean", "numeric");
    AttributeLineNoCr("stdDeviation", "numeric");
    AttributeLineNoCr("min", "numeric");
    AttributeLineNoCr("max", "numeric");
    assert NoCr("{walking,jogging,sport}");
    AttributeLineNoCr("movementType", "{walking,jogging,sport}");
    assert NoCr("{accelerometer,gyroscope}");
    AttributeLineNoCr("sensor", "{accelerometer,gyroscope}");
  }

  /** The header is '\r'-free, so loading it only adds a final newline. */
  lemma ArffHeaderHasNoCr()
    ensures NoCr(ArffHeader)
  {
    HeaderLinesHaveNoCr();
    var h := RelationLine;
    NoCrConcat(h, BlankLine);
    h := h + BlankLine;
    NoCrConcat(h, MeanLine);
    h := h + MeanLine;
    NoCrConcat(h, StdDeviationLine);
    h := h + StdDeviationLine;
    NoCrConcat(h, MinLine);
    h := h + MinLine;
    NoCrConcat(h, MaxLine);
    h := h + MaxLine;
    NoCrConcat(h, MovementTypeLine);
    h := h + MovementTypeLine;
    NoCrConcat(h, SensorLine);
    h := h + SensorLine;
    NoCrConcat(h, BlankLine);
    h := h + BlankLine;
    NoCrConcat(h, DataLine);
    h := h + DataLine;
    assert h == ArffHeader;
  }

  /** The header opens with the relation line and ends in "@data", with no newline after it. */
  lemma ArffHeaderEnds()
    ensures ArffHeader[..26] == "@relation detectSportType\n"
    ensures ArffHeader[|ArffHeader| - 5..] == "@data"
  {
  }

  /** The start of the file size label. */
  const SizePrefix: string := "Dateigröße: "

  /** Above this many KB the size label switches to MB. */
  const MBThresholdKb: int := 10240

  predicate IsNumeral(s: string) {
    s != "" && ',' !in s && '\n' !in s && '\r' !in s
  }

  /** The text `Float.toString` produces for a sample feature. */
  type Numeral = s: string | IsNumeral(s) witness "0.0"

  /** `findMax`: the pairwise rule; the result is one of the three and not below any. */
  function FindMax(x: real, y: real, z: real): (max: real)
    ensures max == x || max == y || max == z
    ensures max >= x && max >= y && max >= z
  {
    if x > y then
      (if x < z then z else x)
    else
      (if y < z then z else y)
  }

  /** `findMin`: the pairwise rule; the result is one of the three and not above any. */
  function FindMin(x: real, y: real, z: real): (min: real)
    ensures min == x || min == y || min == z
    ensures min <= x && min <= y && min <= z
  {
    if x < y then
      (if x > z then z else x)
    else
      (if y > z then z else y)
  }

  /** `getMovementType`: walking before jogging before sport; "" when no button is checked. */
  function GetMovementType(walking: bool, jogging: bool, sport: bool): (movementType: string)
    ensures walking ==> movementType == "walking"
    ensures !walking && jogging ==> movementType == "jogging"
    ensures !walking && !jogging && sport ==> movementType == "sport"
    ensures movementType == "" <==> !walking && !jogging && !sport
  {
    if walking then "walking"
    else if jogging then "jogging"
    else if sport then "sport"
    else ""
  }

  /** `fileSizeToMBString`: the size in KB, or in whole MB once it exceeds 10240 KB. */
  function FileSizeToMBString(fileSize: int): (text: string)
    ensures |text| > |SizePrefix| + 2 && text[..|SizePrefix|] == SizePrefix
    ensures text[|text| - 2..] == if fileSize > MBThresholdKb then "MB" else "KB"
  {
    if fileSize > MBThresholdKb then
      SizePrefix + LongToString(fileSize / 1024) + "MB"
    else
      SizePrefix + LongToString(fileSize) + "KB"
  }

  /**
   * The size label can be read back: after the prefix come the digits of
   * the size shown, without leading zeros, then "MB" exactly when the size
   * is above 10240 KB (10240 itself stays in KB) and "KB" otherwise.
   */
  lemma FileSizeLabelDecodes(kb: nat)
    ensures
      var text := FileSizeToMBString(kb);
      var shown := if kb > MBThresholdKb then kb / 1024 else kb;
      var digits := text[|SizePrefix|..|text| - 2];
      |text| > |SizePrefix| + 2 &&
      text[..|SizePrefix|] == SizePrefix &&
      text[|text| - 2..] == (if kb > MBThresholdKb then "MB" else "KB") &&
      IsDigits(digits) && (|digits| == 1 || digits[0] != '0') &&
      DecimalValue(digits) == shown
  {
    var shown := if kb > MBThresholdKb then kb / 1024 else kb;
    var unit := if kb > MBThresholdKb then "MB" else "KB";
    var text := FileSizeToMBString(kb);
    assert text == SizePrefix + NatToDecimal(shown) + unit;
    assert text[|SizePrefix|..|text| - 2] == NatToDecimal(shown);
    DecimalRoundTrip(shown);
  }

  /** `addNewRecord`'s row: a newline, then the six comma-separated fields. */
  function NewRecord(mean: Numeral, stdDeviation: Numeral, min: Numeral, max: Numeral,
                     movementType: string, sensor: string): (record: string)
    ensures |record| == 6 + |mean| + |stdDeviation| + |min| + |max| + |movementType| + |sensor|
    ensures record[0] == '\n' && record[1..|mean| + 1] == mean
    ensures record[|record| - |sensor| - 1..] == "," + sensor
  {
    "\n" + mean + "," + stdDeviation + "," + min + "," + max + "," + movementType + "," + sensor
  }

  /** The fields of a comma-separated line, as a CSV reader would cut it. */
  function SplitCommas(s: string): (fields: seq<string>)
    ensures |fields| >= 1
  {
    if s == "" then [""]
    else if s[0] == ',' then [""] + SplitCommas(s[1..])
    else
      var rest := SplitCommas(s[1..]);
      [[s[0]] + rest[0]] + rest[1..]
  }

  lemma {:induction false} SplitCommasNoComma(a: string)
    requires ',' !in a
    ensures SplitCommas(a) == [a]
  {
    if a != "" {
      assert a[0] != ',';
      assert ',' !in a[1..] by { assert forall i :: 0 <= i < |a[1..]| ==> a[1..][i] == a[i + 1]; }
      SplitCommasNoComma(a[1..]);
      assert [a[0]] + a[1..] == a;
    }
  }

  lemma {:induction false} SplitCommasFirst(a: string, b: string)
    requires ',' !in a
    ensures SplitCommas(a + "," + b) == [a] + SplitCommas(b)
  {
    var s := a + "," + b;
    if a == "" {
      assert s == "," + b && s[1..] == b;
    } else {
      assert s[0] == a[0] != ',';
      assert s[1..] == a[1..] + "," + b;
      assert ',' !in a[1..] by { assert forall i :: 0 <= i < |a[1..]| ==> a[1..][i] == a[i + 1]; }
      SplitCommasFirst(a[1..], b);
      assert [a[0]] + a[1..] == a;
    }
  }

  /**
   * A row can be read back: after its leading newline, cutting at the commas
   * gives exactly the six fields, provided label and sensor hold no comma.
   */
  lemma RecordFields(mean: Numeral, stdDeviation: Numeral, min: Numeral, max: Numeral,
                     movementType: string, sensor: string)
    requires ',' !in movementType && ',' !in sensor
    ensures
      var record := NewRecord(mean, stdDeviation, min, max, movementType, sensor);
      record[0] == '\n' && SplitCommas(record[1..]) == [mean, stdDeviation, min, max, movementType, sensor]
  {
    var record := NewRecord(mean, stdDeviation, min, max, movementType, sensor);
    var t5 := movementType + "," + sensor;
    var t4 := max + "," + t5;
    var t3 := min + "," + t4;
    var t2 := stdDeviation + "," + t3;
    var t1 := mean + "," + t2;
    var p5 := "\n" + mean + "," + stdDeviation + "," + min + "," + max + ",";
    assert record == p5 + t5;
    var p4 := "\n" + mean + "," + stdDeviation + "," + min + ",";
    assert p5 + t5 == p4 + t4;
    var p3 := "\n" + mean + "," + stdDeviation + ",";
    assert p4 + t4 == p3 + t3;
    var p2 := "\n" + mean + ",";
    assert p3 + t3 == p2 + t2;
    assert p2 + t2 == "\n" + t1;
    assert record[1..] == t1;
    SplitCommasNoComma(sensor);
    SplitCommasFirst(movementType, sensor);
    SplitCommasFirst(max, t5);
    SplitCommasFirst(min, t4);
    SplitCommasFirst(stdDeviation, t3);
    SplitCommasFirst(mean, t2);
  }

  /**
   * A row is one line: its only line break is the leading '\n', and it does
   * not end in one, provided label and sensor hold no line break.
   */
  lemma RecordIsOneLine(mean: Numeral, stdDeviation: Numeral, min: Numeral, max: Numeral,
                        movementType: string, sensor: string)
    requires '\n' !in movementType && '\n' !in sensor && '\r' !in movementType && '\r' !in sensor
    ensures
      var record := NewRecord(mean, stdDeviation, min, max, movementType, sensor);
      record[0] == '\n' &&
      '\n' !in record[1..] && '\r' !in record &&
      record[|record| - 1] != '\n'
  {
    var record := NewRecord(mean, stdDeviation, min, max, movementType, sensor);
    var body := mean + "," + stdDeviation + "," + min + "," + max + "," + movementType + "," + sensor;
    assert record == "\n" + body && record[1..] == body;
    var head := mean + "," + stdDeviation + "," + min + "," + max + "," + movementType + ",";
    assert body == head + sensor;
    if sensor == "" {
      assert record[|record| - 1] == ',';
    } else {
      assert record[|record| - 1] == sensor[|sensor| - 1];
    }
  }

  /**
   * Appending a row and loading the file back gives the old content, the
   * row, and the newline the load loop puts after the last line.
   */
  lemma LoadAfterRecord(content: string, mean: Numeral, stdDeviation: Numeral, min: Numeral, max: Numeral,
                        movementType: string, sensor: string)
    requires '\r' !in content
    requires '\n' !in movementType && '\n' !in sensor && '\r' !in movementType && '\r' !in sensor
    ensures
      var record := NewRecord(mean, stdDeviation, min, max, movementType, sensor);
      LoadedText(content + record) == content + record + "\n"
  {
    var record := NewRecord(mean, stdDeviation, min, max, movementType, sensor);
    RecordIsOneLine(mean, stdDeviation, min, max, movementType, sensor);
    var s := content + record;
    assert s[|s| - 1] == record[|record| - 1];
    LoadedTextNoCr(s);
  }

  /**
   * A new data file with one row appended loads back as the header, the row
   * and the newline the load loop adds after the last line.
   */
  lemma HeaderThenRowLoads(mean: Numeral, stdDeviation: Numeral, min: Numeral, max: Numeral,
                           movementType: string, sensor: string)
    requires '\n' !in movementType && '\n' !in sensor && '\r' !in movementType && '\r' !in sensor
    ensures
      var record := NewRecord(mean, stdDeviation, min, max, movementType, sensor);
      LoadedText(ArffHeader + record) == ArffHeader + record + "\n"
  {
    ArffHeaderHasNoCr();
    LoadAfterRecord(ArffHeader, mean, stdDeviation, min, max, movementType, sensor);
  }

  lemma NoArffWithoutF(n: string)
    requires 'f' !in n
    ensures !ContainsArffFrom(n, 1)
  {
    forall j: nat | 1 <= j < |n| ensures !ArffAt(n, j) {
      assert j + 4 <= |n| ==> n[j..j + 4][2] == n[j + 2];
    }
  }

  /** The data file's clear name is the same under the regex split and under suffix stripping. */
  lemma DataFileClearName()
    ensures ClearFileNameOf(FileName) == Some("acc-data,walking,jogging,sport")
    ensures StripFileType(FileName) == "acc-data,walking,jogging,sport"
  {
    var n := "acc-data,walking,jogging,sport";
    assert FileName == n + FileTypeArff;
    assert 'f' !in n;
    NoArffWithoutF(n);
    ClearFileNameRoundTrip(n);
    StripFileTypeRoundTrip(n);
  }

  class MainActivity {
    /** The context's storage. */
    const device: Device
    /** Where `FileHandler.getInstance` keeps its instance. */
    const handlers: FileHandlerHolder
    /** The bound file service; null until connected. */
    var fileService: FileService?
    /** The text of the size label. */
    var sizeLabel: string

    ghost predicate Valid()
      reads this
    {
      fileService != null ==> fileService.device == device
    }

    constructor (device: Device, handlers: FileHandlerHolder)
      ensures Valid() && fileService == null && sizeLabel == ""
      ensures this.device == device && this.handlers == handlers
    {
      this.device := device;
      this.handlers := handlers;
      fileService := null;
      sizeLabel := "";
    }

    /** The handler's current file, or null when there is no handler or no current file. */
    function Current(): ArffFile?
      reads handlers, handlers.instance
    {
      if handlers.instance == null then null else handlers.instance.currentArffFile
    }

    /** The current file is a new record named `FileName` holding `content`. */
    twostate predicate CurrentIsNew(content: string)
      reads handlers, handlers.instance, Current()
    {
      var current := Current();
      current != null && fresh(current) &&
      current.fileName == FileName && current.context == "" && current.fileContent == content
    }

    /**
     * `addArffFile`: the data file holds exactly the header (truncated first)
     * and becomes the current file. With no file service the file is still
     * opened, so truncated, before the call on null fails and is caught.
     */
    method AddArffFile()
      requires Valid()
      modifies device, handlers, handlers.instance
      ensures device.external == old(device.external) && device.dirs == old(device.dirs)
      ensures device.state == old(device.state)
      ensures fileService != null ==>
        device.files == old(device.files)[FileName := ArffHeader] && CurrentIsNew(ArffHeader)
      ensures fileService == null ==>
        device.files == old(device.files)[FileName := ""] &&
        handlers.instance == old(handlers.instance) &&
        (handlers.instance != null ==> handlers.instance.currentArffFile == old(handlers.instance.currentArffFile))
    {
      var inputFileName := FileName;
      var arffFile := new ArffFile();
      arffFile.SetFileName(inputFileName, false);
      arffFile.SetFileContent(ArffHeader);
      DataFileNameIsPlain();
      var out := device.OpenFileOutput(arffFile.FileName(), false);
      if fileService == null {
        return;
      }
      fileService.SaveAFile(arffFile, out.value);
      assert "" + ArffHeader == ArffHeader;
      var handler := handlers.GetInstance();
      handler.SetCurrentArffFile(arffFile);
    }

    /**
     * `addNewRecord`: appends the row to the file the current record names,
     * keeping the old content as a prefix (a missing file is created). No
     * write happens without a file service, without a current record, or
     * when its name does not denote a plain file.
     */
    method AddNewRecord(mean: Numeral, stdDeviation: Numeral, min: Numeral, max: Numeral,
                        movementType: string, sensor: string)
      requires Valid()
      modifies device, handlers
      ensures device.external == old(device.external) && device.dirs == old(device.dirs)
      ensures device.state == old(device.state)
      ensures fileService == null ==>
        device.files == old(device.files) && handlers.instance == old(handlers.instance)
      ensures fileService != null ==>
        handlers.instance != null &&
        (old(handlers.instance) != null ==> handlers.instance == old(handlers.instance))
      ensures fileService != null ==>
        var current := Current();
        if current != null && IsPlainFileName(current.fileName) then
          device.files == old(device.files)[current.fileName :=
            OpenedText(old(device.files), current.fileName, true)
            + NewRecord(mean, stdDeviation, min, max, movementType, sensor)]
        else
          device.files == old(device.files)
    {
      if fileService != null {
        var handler := handlers.GetInstance();
        var arffFile := handler.GetCurrentArffFile();
        var newRecord := NewRecord(mean, stdDeviation, min, max, movementType, sensor);
        if arffFile == null {
          return;
        }
        var out := device.OpenFileOutput(arffFile.FileName(), true);
        if out.None? {
          return;
        }
        fileService.AppendToFile(newRecord, out.value);
      }
    }

    /**
     * `onServiceConnected`: with the data file present, the current record
     * becomes its loaded content under the name `FileName` and the size text
     * shows its size; with the file missing, a new file with the header is
     * created instead.
     */
    method OnServiceConnected(service: FileService)
      requires service.device == device
      modifies this, device, handlers, handlers.instance
      ensures fileService == service && Valid()
      ensures device.external == old(device.external) && device.dirs == old(device.dirs)
      ensures device.state == old(device.state)
      ensures FileName !in old(device.files) ==>
        device.files == old(device.files)[FileName := ArffHeader] && CurrentIsNew(ArffHeader) &&
        sizeLabel == old(sizeLabel)
      ensures FileName in old(device.files) ==>
        device.files == old(device.files) &&
        CurrentIsNew(LoadedText(old(device.files)[FileName])) &&
        sizeLabel == FileSizeToMBString(SizeInKb(old(device.files), FileName))
    {
      fileService := service;
      DataFileNameIsPlain();
      var input := device.OpenFileInput(FileName);
      if input.None? {
        AddArffFile();
        return;
      }
      var loaded := fileService.LoadFileFromDevice(input.value);
      var handler := handlers.GetInstance();
      handler.SetCurrentArffFile(loaded);
      handler := handlers.GetInstance();
      var current := handler.GetCurrentArffFile();
      current.SetFileName(FileName, false);
      var kb := fileService.CalcFileSize(FileName);
      sizeLabel := FileSizeToMBString(kb);
    }

    /**
     * The delete button: removes the data file, shows the size of the now
     * missing file (0, without a unit) and creates a new file holding the
     * header, which becomes the current file.
     */
    method OnDeleteClicked()
      requires Valid() && fileService != null
      modifies this, device, handlers, handlers.instance
      ensures fileService == old(fileService) && Valid()
      ensures device.files == old(device.files)[FileName := ArffHeader]
      ensures device.external == old(device.external) && device.dirs == old(device.dirs)
      ensures device.state == old(device.state)
      ensures sizeLabel == SizePrefix + "0"
      ensures CurrentIsNew(ArffHeader)
    {
      var deleted := device.Delete(FileName);
      var kb := fileService.CalcFileSize(FileName);
      sizeLabel := SizePrefix + LongToString(kb);
      AddArffFile();
    }

    /**
     * `exportToSdCard`: reloads the data file into the current record and
     * exports that record. Without a file service or without the data file
     * nothing changes.
     */
    method ExportToSdCard()
      requires Valid()
      modifies device, handlers, handlers.instance
      ensures device.files == old(device.files) && device.state == old(device.state)
      ensures fileService == null ==>
        device.external == old(device.external) && device.dirs == old(device.dirs) &&
        handlers.instance == old(handlers.instance) &&
        (handlers.instance != null ==> handlers.instance.currentArffFile == old(handlers.instance.currentArffFile))
      ensures fileService != null && FileName !in old(device.files) ==>
        device.external == old(device.external) && device.dirs == old(device.dirs) &&
        handlers.instance != null &&
        (old(handlers.instance) != null ==>
           handlers.instance == old(handlers.instance) &&
           handlers.instance.currentArffFile == old(handlers.instance.currentArffFile)) &&
        (old(handlers.instance) == null ==>
           fresh(handlers.instance) && handlers.instance.currentArffFile != null &&
           handlers.instance.currentArffFile.IsDefault())
      ensures fileService != null && FileName in old(device.files) ==>
        var loaded := LoadedText(old(device.files)[FileName]);
        var target := ExportPath(device.externalRoot, FileName);
        CurrentIsNew(loaded) &&
        (CanExport(old(device.state)) ==>
           device.dirs == old(device.dirs) + ExportDirChain(device.externalRoot) &&
           device.external == if target in old(device.dirs) then old(device.external)
                              else old(device.external)[target := loaded]) &&
        (!CanExport(old(device.state)) ==>
           device.dirs == old(device.dirs) && device.external == old(device.external))
    {
      if fileService != null {
        // Java evaluates the call's target, `getInstance()`, before its argument opens the file.
        var handler := handlers.GetInstance();
        var input := device.OpenFileInput(FileName);
        if input.Some? {
          var loaded := fileService.LoadFileFromDevice(input.value);
          handler.SetCurrentArffFile(loaded);
          handler := handlers.GetInstance();
          var current := handler.GetCurrentArffFile();
          current.SetFileName(FileName, false);
          DataFileNameIsPlain();
          handler := handlers.GetInstance();
          var outcome := fileService.ExportAFileToSdCard(handler.GetCurrentArffFile());
        }
      }
    }
  }
}
